=== FILE: README.md ===
# Target device handshake, in Dafny

This project models the target side of a security-test handshake over WebSocket
(`target_app.py`). A target device accepts a connection, logs it and sends a
`target_register` message with its id. It then answers each inbound frame:
- a frame that is not JSON gets `{"error": "Invalid JSON"}`;
- a message that fails the schema check gets `{"error": reason}` and an
  `INVALID_MESSAGE` log entry;
- a `ping` gets a `pong`;
- a `security_test_request` gets a `consent_response`, which is always "ACCEPTED".
  Before that reply goes out, the request is recorded in the last-scan metadata
  record and logged as `CONSENT_RESPONSE`.

When the connection ends, the target logs `CONNECTION_CLOSED`, unless the registration
send raised (see below). The event log keeps
only the 100 most recent entries. On start-up, the target creates each of its three
records (settings, event log, metadata) only when that record does not exist yet.

Modules:
- `JsonValues` (`json.dfy`): decoded JSON values, and `Option`.
- `Validator` (`validator.dfy`): `validate_message`, as a pure function.
- `Storage` (`storage.dfy`):
  - the three records, held as in-memory state in a class `Store` instead of files;
  - `setup_storage` and `log_event` as methods of that class;
  - the last-100 truncation, and lemmas about it.
- `Protocol` (`protocol.dfy`): the reference definition of one connection.
  - `Step` is what handling one frame does.
  - `Run` is the frame loop over the steps.
  - `Connection` is the whole handler: registration, loop and cleanup.
  - The lemmas state what the handler promises.
- `TargetHandler` (`handler.dfy`): `handle_target_request` as imperative code over a
  `Store`. Its frame loop is proved to agree with `Connection`.

Modelling choices:
- **Target id.** The id is a parameter; `uuid4` is not modelled.
- **Time.** The event-loop time is a parameter `clock`. `clock(k)` is the time while
  frame k is handled.
- **Frames.** A frame is `DecodeFailed` or the JSON value it decoded to.
- **Send failures.** A send that raises is given by `failAt`: 0 is the registration,
  and k + 1 is the reply to frame k.
- **Records.** Each record is `Absent`, `Unreadable` or `Present(value)`. A file that
  exists but cannot be loaded is left alone by `setup_storage`, because it exists.
  `log_event` reads such a file as an empty log.

The order of operations in the code decides what a failed send leaves behind:
- **Failed registration send.** The `finally` at `target_app.py:145-147` covers only
  the frame loop. The registration send at `target_app.py:89-92` comes before the
  `try` at `target_app.py:94`. So when that send raises, no frame is handled and
  nothing more is logged. `Protocol.ConnectionLifecycleLog` states both cases.
- **Failed reply send.** For a rejected message, the error reply is sent before
  `INVALID_MESSAGE` is logged. If that send raises, the entry is never written.
- **Failed consent send.** For a security-test request, the metadata and the log are
  written before the reply. If that reply raises, the consent is recorded but was
  never delivered. `Protocol.SendFailureEndsConnection` states both effects.

## Model

| member | source | states |
|---|---|---|
| Validator.Validate | target_app.py:63-78 | A non-object gives (false, "Message must be a JSON object"). An object whose "type" is missing or is neither "ping" nor "security_test_request" gives (false, "Invalid or missing 'type' field"). A security_test_request without "agent_id" gives (false, "Missing 'agent_id' in security_test_request"). A ping, or a request with an agent, gives (true, "Valid message"). The verdict is valid exactly for those two. |
| Validator.ExtraFieldsIgnored | target_app.py:72-78 | Adding fields other than "type" and "agent_id" to an object never changes its verdict. |
| Validator.ReasonsAreFixed | target_app.py:72-78 | The reason is always one of the four fixed strings. It is "Valid message" exactly when the message is valid. |
| Storage.KeepLast | target_app.py:57 | The slice `logs[-100:]`. What it keeps is given by `Storage.KeepLastIsSuffix` and `Storage.KeepLastAbsorbs`. |
| Storage.LoadedLogs | target_app.py:55 | `load_json(LOGS_FILE) or []`: the stored list, or empty when the file is missing or cannot be loaded. |
| Storage.Appended | target_app.py:53-57 | The log one `log_event` call saves. `Storage.AppendedKeepsRecent` states what it holds. |
| Storage.AppendedAll | target_app.py:53-57 | The log after one `log_event` call per entry, in order. `Storage.AppendedAllKeepsLast` and `Storage.RetainsMostRecent` state what it holds. |
| Storage.KeepLastIsSuffix | target_app.py:57 | What `KeepLast(s, n)` keeps is the suffix of `s` of length min(len(s), n). For n > 0 that is Python's `s[-n:]`; only n = 100 is used. |
| Storage.AppendedKeepsRecent | target_app.py:53-57 | After `log_event` the log holds between 1 and 100 entries, and the new entry is last. Before it come the most recent 99 earlier entries, in order. An unloadable or missing log leaves the new entry alone. |
| Storage.KeepLastAbsorbs | target_app.py:57 | Truncating to the last n, appending, then truncating again is the same as appending and truncating once. |
| Storage.AppendedAllKeepsLast | target_app.py:53-57 | After a run of `log_event` calls, the log is the last 100 of the loaded log followed by every logged entry. |
| Storage.RetainsMostRecent | target_app.py:53-57 | Once at least 100 events have been logged, the log is exactly the 100 most recent, in the order they were logged. |
| Storage.KeepLastOfLongTail | target_app.py:57 | When the appended part alone has at least n entries, the last n of the whole come only from it. |
| Storage.Store.SetupStorage | target_app.py:43-50 | Each record is created only when absent: settings as {target_id, port: 8000}, logs as [], metadata as {last_scan_time: null, agent_source: null}. Existing records, readable or not, are unchanged. Afterwards none is absent. |
| Storage.Store.LogEvent | target_app.py:53-57 | The log becomes the last 100 of (the loaded log, empty when missing or unreadable) + [{event, details}]. Settings and metadata are unchanged. |
| Storage.Store.SaveMetadata | target_app.py:130-133 | The metadata record is overwritten. The other records are unchanged. |
| Protocol.ToJson | target_app.py:89-143 | The JSON object each outbound message is sent as: `target_register` and `pong` with the target id, `consent_response` with the target id, the agent id and the consent, `{"error": ...}` for errors. `Protocol.WireFormDistinct` states that this wire form is injective. |
| Protocol.Step | target_app.py:96-143 | What handling one frame does: its reply, the entries logged before and after the reply is sent, and the metadata written. `Protocol.StepOutcome` states each case. |
| Protocol.Written | target_app.py:99-143 | The entries a frame logs when its reply does or does not raise. The entry logged before the send (CONSENT_RESPONSE at 135) is always logged; the entry after it (INVALID_MESSAGE at 106) is logged only when the send at 105 succeeds. The metadata write at 130-133, which also comes before the send, is `Protocol.Advance`'s. |
| Protocol.Advance | target_app.py:95-143 | One pass of the loop on the connection's state: the reply is delivered unless its send raises, the frame's entries are logged as `Protocol.Written` says, and its metadata write replaces the record. `Protocol.RunExtend` and `TargetHandler.HandleFrame` are stated through it. |
| Protocol.Run | target_app.py:95-143 | The `async for` loop over the frames, ending when they run out or a send raises. The lemmas from `Protocol.NeverRaised` to `Protocol.RunMetadata` state its properties. |
| Protocol.Connection | target_app.py:84-147 | The whole handler: CONNECTION_RECEIVED, the registration, the loop, and CONNECTION_CLOSED unless the registration send raised. The `Protocol.Connection...` lemmas state its properties, and `TargetHandler.HandleTargetRequest` is proved to agree with it. |
| Protocol.WireFormDistinct | target_app.py:89-143 | Error replies are the only outbound messages without a "type" field. No two different messages are sent as the same JSON object. |
| Protocol.StepOutcome | target_app.py:96-143 | Per frame: an undecodable frame gets "Invalid JSON" and logs nothing. A rejected message gets the validator's reason, and INVALID_MESSAGE{reason} is logged after the reply. A ping gets pong{target_id} and changes nothing else. A security-test request gets consent_response{target_id, agent_id, "ACCEPTED"}, after metadata {now, agent_id} and CONSENT_RESPONSE{agent_id, "ACCEPTED"} are written. The reply is an error exactly for the first two cases, and metadata is written exactly for the last. |
| Protocol.NeverRaised | target_app.py:95-143 | Without a failed send, the frame loop does not end by raising. |
| Protocol.RunWithoutFailure | target_app.py:95-143 | Without a failed send, each frame's reply is delivered in frame order, and each frame's entries are logged in frame order. |
| Protocol.RaisedIsFinal | target_app.py:95-143 | Once a send has raised, later frames change nothing. |
| Protocol.RunStopped | target_app.py:95-143 | The loop's result after stopping, whether the frames ran out or a send raised, is the result of the whole run. |
| Protocol.LaterFailureIgnored | target_app.py:95-143 | A failure scheduled for a send the loop never reaches has no effect. |
| Protocol.RunExtend | target_app.py:95-143 | One more frame, when no send has raised yet, advances the session by that frame's step. |
| Protocol.RunTraceFromSteps | target_app.py:95-143 | Every entry the loop logs was written by the handling of one of its frames. |
| Protocol.RunMetadataUntouched | target_app.py:130-133 | Without a failed send, a loop in which no frame writes metadata leaves the initial record. |
| Protocol.RunMetadataLast | target_app.py:130-133 | Without a failed send, the metadata record is the one written by the last frame that wrote one. |
| Protocol.RunMetadata | target_app.py:130-133 | Both of the above together: the metadata is the initial record when no frame wrote one, and otherwise the one the last writer wrote. |
| Protocol.StepLogsOne | target_app.py:103-143 | One frame logs at most one entry: INVALID_MESSAGE for a rejected message, CONSENT_RESPONSE for a security-test request, nothing otherwise. |
| Protocol.FrameLogCounts | target_app.py:95-143 | Over all frames, the entries are one INVALID_MESSAGE per rejected message and one CONSENT_RESPONSE per security-test request, and nothing else. |
| Protocol.ConnectionRepliesInOrder | target_app.py:89-143 | When every send succeeds, there is one more outbound message than there are frames. target_register{target_id} comes first, then each frame's reply in frame order. |
| Protocol.ConnectionLifecycleLog | target_app.py:86-147 | The first entry is CONNECTION_RECEIVED, and there is no other. Unless the registration send raises, the last entry is CONNECTION_CLOSED and there is exactly one, however the loop ended. When the registration send raises, no frame is handled: nothing is delivered, CONNECTION_RECEIVED is the only entry, no CONNECTION_CLOSED is logged and the metadata is untouched. |
| Protocol.ConnectionLogCounts | target_app.py:86-147 | When every send succeeds, the log gets the two lifecycle entries, one INVALID_MESSAGE per rejected message and one CONSENT_RESPONSE per security-test request. Undecodable frames and pings add nothing. |
| Protocol.ConnectionMetadata | target_app.py:122-133 | When every send succeeds, the metadata ends as {clock(j), agent_id} of the last security-test request j. It is untouched when there was none. |
| Protocol.RunFailingAt | target_app.py:95-143 | When the reply to frame k raises, the earlier frames ran as if nothing failed. Frame k wrote only what it writes before its reply. |
| Protocol.SendFailureEndsConnection | target_app.py:95-147 | When the reply to frame k raises, the connection ends with an exception. Only the registration and the earlier replies were delivered, and CONNECTION_CLOSED is still logged last. A rejected frame k is not logged. A security-test request in frame k is recorded in the metadata and the log. |
| Protocol.GarbageThenPing | target_app.py:96-117 | A non-JSON frame does not end the connection: a ping after it is answered with a pong. |
| TargetHandler.LogAfter | target_app.py:53-57 | Logging one entry on top of a truncated log gives the last 100 of everything logged so far. |
| TargetHandler.HandleFrame | target_app.py:96-143 | One pass of the loop over the store: the messages delivered, the raise, the metadata and the log follow the reference step (`Protocol.Advance` of `Protocol.Step`). Settings are untouched. |
| TargetHandler.FrameLoop | target_app.py:95-143 | The `async for` loop: it stops when the frames run out or a send raises. The delivered messages, the metadata and the log then follow `Protocol.Run` over every frame. |
| TargetHandler.ClosedAfterTrace | target_app.py:145-147 | Logging CONNECTION_CLOSED on top of the truncated log of CONNECTION_RECEIVED and the loop's entries gives the last 100 of all three parts in order. |
| TargetHandler.ClosedLog | target_app.py:145-147 | Appending CONNECTION_CLOSED to the log the loop left gives the last 100 entries of the connection's whole log. |
| TargetHandler.ServeFrames | target_app.py:94-147 | The `try`/`finally` part: the loop, then CONNECTION_CLOSED however it ended. The result agrees with `Protocol.Connection`. |
| TargetHandler.HandleTargetRequest | target_app.py:84-147 | The whole handler over the store: messages delivered, whether it raised, the metadata record, and the log (the last 100 of the loaded log followed by the connection's entries) all agree with `Protocol.Connection`. Settings are untouched. |

## Left out

- WebSocket transport, TLS set-up and the server start (`target_app.py:153-170`) are
  foreign library calls. Inbound frames are a finite sequence, sends append to an
  outbound sequence, and a failing send is the `failAt` parameter.
- The end of the `async for` loop is the end of the frame sequence. On an abnormal
  close the `async for` raises, the `finally` at `target_app.py:145-147` then logs
  CONNECTION_CLOSED, and the exception leaves the handler. That exception is not
  modelled, so such a close looks like a normal one.
- JSON text encoding and decoding are not modelled. A frame arrives already decoded
  or marked `DecodeFailed`. Outbound messages are a datatype, with `Protocol.ToJson`
  giving the object each one is sent as.
- A frame on which `json.loads` raises something other than a JSON decoding error is
  not modelled. Two examples: a binary frame that is not valid UTF-8, and JSON nested
  too deeply for the decoder, which raises a recursion error. The `except` at
  `target_app.py:98` does not catch these, so the loop would end by raising, and later
  frames would never be read. The model can only give such a frame as `Decoded(..)`
  or `DecodeFailed`, both of which get a reply and continue the loop.
- File I/O is not modelled: the records are fields of `Store`.
  - A write that fails is not modelled.
  - Exceptions from `log_event` itself are not modelled.
- A log file that holds valid JSON other than a list is not modelled. A falsy value
  would be read as empty; a non-empty dict would make `append` raise.
- JSON numbers are all `JNumber(real)`. An `agent_id` of `1` and one of `1.0` are echoed
  differently by `json.dumps` at `target_app.py:141`, but they are the same value in the
  model. The NaN and Infinity values that `json.loads` accepts cannot be represented.
- The log record holds only `{event, details}` entries. A stored log list with other
  items, which `target_app.py:55-57` would keep as they are, cannot be represented.
- JSON strings are sequences of Unicode scalar values, so a lone surrogate decoded from
  a `\uD8xx` or `\uDCxx` escape cannot be represented. As an `agent_id` it would make the
  `print` at `target_app.py:124` raise on a strict UTF-8 output. That would end the
  connection before the metadata save, the CONSENT_RESPONSE entry and the reply at
  `target_app.py:130-143`, with only CONNECTION_CLOSED logged after it.
- The target id's `uuid4` generation and `TARGET-` format (`target_app.py:12`) are not
  modelled: the id is a parameter.
- The event-loop clock's float time (`target_app.py:131`) is a `real` read from the
  `clock` parameter.
- `print` output is left out.
- Interleaving between concurrent connections is left out. The model is one
  connection at a time.
- `attacker.py` is not part of this model. It is a scripted client with no logic of
  its own.

=== FILE: handler.dfy ===
/** `handle_target_request`: the per-connection handler, step by step over the store. */
module TargetHandler {
  import opened JsonValues
  import opened Validator
  import opened Storage
  import opened Protocol

  /** Logging `e` after the entries `logged` keeps the last 100 of `logged + [e]`. */
  lemma LogAfter(logged: seq<LogEntry>, e: LogEntry)
    ensures Appended(Present(KeepLast(logged, MaxLogEntries)), e) == KeepLast(logged + [e], MaxLogEntries)
  {
    KeepLastAbsorbs(logged, [e], MaxLogEntries);
  }

  /** One pass of the frame loop: handles `f` at time `now`; its reply raises when
      `sendFails`. Before the pass the handler has delivered `sent0 + o.sent` and logged
      `logged + o.trace`; afterwards the same holds of the session advanced by the step `s`. */
  method HandleFrame(store: Store, targetId: string, now: real, f: Frame, sendFails: bool,
                     sent: seq<Outbound>, ghost sent0: seq<Outbound>, ghost logged: seq<LogEntry>,
                     ghost o: Session, ghost s: StepResult)
    returns (sent': seq<Outbound>, raised: bool)
    requires s == Step(targetId, now, f)
    requires sent == sent0 + o.sent && store.metadata == o.metadata
    requires store.logs == Present(KeepLast(logged + o.trace, MaxLogEntries))
    modifies store
    ensures var next := Advance(o, s, sendFails);
            sent' == sent0 + next.sent && raised == next.raised && store.metadata == next.metadata &&
            store.logs == Present(KeepLast(logged + next.trace, MaxLogEntries))
    ensures store.settings == old(store.settings)
  {
    sent', raised := sent, false;
    match f {
      case DecodeFailed =>
        if sendFails {
          raised := true;
        } else {
          sent' := sent + [ErrorReply(InvalidJson)];
        }
        assert o.trace + [] == o.trace;
      case Decoded(data) =>
        var verdict := Validate(data);
        if !verdict.ok {
          if sendFails {
            raised := true;
            assert o.trace + [] == o.trace;
          } else {
            sent' := sent + [ErrorReply(verdict.reason)];
            assert sent' == sent0 + (o.sent + [ErrorReply(verdict.reason)]);
            store.LogEvent(InvalidEvent, map["reason" := JString(verdict.reason)]);
            LogAfter(logged + o.trace, InvalidEntry(verdict.reason));
            assert logged + o.trace + [InvalidEntry(verdict.reason)] == logged + (o.trace + [InvalidEntry(verdict.reason)]);
            assert Written(s, sendFails) == [InvalidEntry(verdict.reason)];
          }
        } else if data.fields["type"] == JString(PingType) {
          if sendFails {
            raised := true;
          } else {
            sent' := sent + [Pong(targetId)];
          }
          assert o.trace + [] == o.trace;
        } else {
          // the validator admits only the two request types, so this is a security-test request
          var agent := data.fields["agent_id"];
          var consent := Consent;
          store.SaveMetadata(ScanRecord(now, agent));
          store.LogEvent(ConsentEvent, map["agent_id" := agent, "consent" := JString(consent)]);
          LogAfter(logged + o.trace, ConsentEntry(agent, consent));
          assert logged + o.trace + [ConsentEntry(agent, consent)] == logged + (o.trace + [ConsentEntry(agent, consent)]);
          assert Written(s, sendFails) == [ConsentEntry(agent, consent)];
          if sendFails {
            raised := true;
          } else {
            sent' := sent + [ConsentResponse(targetId, agent, consent)];
          }
        }
    }
  }

  /** The `async for` loop over `frames`: `sent` is what was delivered before it and
      `logged` everything logged before it. Ends when the frames run out or a send raises. */
  method FrameLoop(store: Store, targetId: string, clock: nat -> real, frames: seq<Frame>,
                   failAt: Option<nat>, sent: seq<Outbound>, ghost logged: seq<LogEntry>)
    returns (sent': seq<Outbound>, raised: bool)
    requires store.logs == Present(KeepLast(logged, MaxLogEntries))
    modifies store
    ensures var o := Run(Steps(targetId, clock, frames), failAt, old(store.metadata));
            sent' == sent + o.sent && raised == o.raised && store.metadata == o.metadata &&
            store.logs == Present(KeepLast(logged + o.trace, MaxLogEntries))
    ensures store.settings == old(store.settings)
  {
    ghost var meta0 := store.metadata;
    ghost var steps := Steps(targetId, clock, frames);
    sent', raised := sent, false;
    var i := 0;
    ghost var o := Run(steps[..0], failAt, meta0);
    assert sent + [] == sent && logged + [] == logged;
    while i < |frames| && !raised
      invariant 0 <= i <= |frames|
      invariant o == Run(steps[..i], failAt, meta0)
      invariant sent' == sent + o.sent && raised == o.raised && store.metadata == o.metadata
      invariant store.logs == Present(KeepLast(logged + o.trace, MaxLogEntries))
      invariant store.settings == old(store.settings)
    {
      RunExtend(steps, failAt, meta0, i);
      sent', raised := HandleFrame(store, targetId, clock(i), frames[i], failAt == Some(i + 1), sent',
                                   sent, logged, o, steps[i]);
      o := Advance(o, steps[i], failAt == Some(i + 1));
      i := i + 1;
    }
    RunStopped(steps, failAt, meta0, i);
  }

  /** Appending CONNECTION_CLOSED to the log left by CONNECTION_RECEIVED and the loop's
      entries `trace` keeps the last 100 of the connection's whole log. */
  lemma ClosedAfterTrace(base: seq<LogEntry>, remote: string, trace: seq<LogEntry>)
    ensures Appended(Present(KeepLast(base + [ReceivedEntry(remote)] + trace, MaxLogEntries)), ClosedEntry())
              == KeepLast(base + ([ReceivedEntry(remote)] + trace + [ClosedEntry()]), MaxLogEntries)
  {
    LogAfter(base + [ReceivedEntry(remote)] + trace, ClosedEntry());
    assert base + [ReceivedEntry(remote)] + trace + [ClosedEntry()]
        == base + ([ReceivedEntry(remote)] + trace + [ClosedEntry()]);
  }

  /** The closing entry appended to the log the frame loop left gives the connection's log. */
  lemma ClosedLog(targetId: string, remote: string, clock: nat -> real, frames: seq<Frame>,
                  failAt: Option<nat>, meta0: Record<Json>, base: seq<LogEntry>)
    requires failAt != Some(0)
    ensures var o := Run(Steps(targetId, clock, frames), failAt, meta0);
            var c := Connection(targetId, remote, clock, frames, failAt, meta0);
            Appended(Present(KeepLast(base + [ReceivedEntry(remote)] + o.trace, MaxLogEntries)), ClosedEntry())
              == KeepLast(base + c.trace, MaxLogEntries)
  {
    var o := Run(Steps(targetId, clock, frames), failAt, meta0);
    ConnectionAfterRegistration(targetId, remote, clock, frames, failAt, meta0);
    ClosedAfterTrace(base, remote, o.trace);
  }

  /** The part of a connection from `remote` after its registration is delivered: the
      frame loop, and the closing entry that the cleanup logs however the loop ended.
      `base` is the log as loaded before the connection's first entry. */
  method ServeFrames(store: Store, targetId: string, remote: string, clock: nat -> real,
                     frames: seq<Frame>, failAt: Option<nat>, ghost base: seq<LogEntry>)
    returns (sent: seq<Outbound>, raised: bool)
    requires failAt != Some(0)
    requires store.logs == Present(KeepLast(base + [ReceivedEntry(remote)], MaxLogEntries))
    modifies store
    ensures var c := Connection(targetId, remote, clock, frames, failAt, old(store.metadata));
            sent == c.sent && raised == c.raised && store.metadata == c.metadata &&
            store.logs == Present(KeepLast(base + c.trace, MaxLogEntries))
    ensures store.settings == old(store.settings)
  {
    sent, raised := FrameLoop(store, targetId, clock, frames, failAt, [TargetRegister(targetId)],
                              base + [ReceivedEntry(remote)]);
    store.LogEvent(ClosedEvent, map[]);
    ConnectionAfterRegistration(targetId, remote, clock, frames, failAt, old(store.metadata));
    ClosedLog(targetId, remote, clock, frames, failAt, old(store.metadata), base);
  }

  /** One connection from `remote`: the frames that arrive are `frames`, `clock(k)` is the
      event-loop time while frame k is handled, and `failAt` is the number of the send that
      raises (0 is the registration, k + 1 the reply to frame k), if any. Returns what was
      delivered and whether the handler ended by raising. */
  method HandleTargetRequest(store: Store, targetId: string, remote: string, clock: nat -> real,
                             frames: seq<Frame>, failAt: Option<nat>)
    returns (sent: seq<Outbound>, raised: bool)
    modifies store
    ensures var c := Connection(targetId, remote, clock, frames, failAt, old(store.metadata));
            sent == c.sent && raised == c.raised && store.metadata == c.metadata &&
            store.logs == Present(KeepLast(LoadedLogs(old(store.logs)) + c.trace, MaxLogEntries))
    ensures store.settings == old(store.settings)
  {
    ghost var base := LoadedLogs(store.logs);
    store.LogEvent(ReceivedEvent, map["remote" := JString(remote)]);
    if failAt == Some(0) {
      // the registration send raises before the loop's cleanup is in force
      sent, raised := [], true;
      return;
    }
    sent, raised := ServeFrames(store, targetId, remote, clock, frames, failAt, base);
  }
}

=== FILE: json.dfy ===
/** Decoded JSON values, in the shape Python's json module hands them to the target. */
module JsonValues {

  datatype Option<+T> = None | Some(value: T)

  /** A JSON value after decoding: objects become string-keyed maps (Python dicts),
      arrays sequences (Python lists), and every number a real (Python int or float). */
  datatype Json =
    | JNull
    | JBool(b: bool)
    | JNumber(n: real)
    | JString(s: string)
    | JArray(items: seq<Json>)
    | JObject(fields: map<string, Json>)

  /** `value.get(key)`: the entry under `key` of an object, None when it has none. */
  function Get(value: Json, key: string): Option<Json>
    requires value.JObject?
  {
    if key in value.fields then Some(value.fields[key]) else None
  }
}

=== FILE: protocol.dfy ===
/** The target side of the handshake, as functions: what one connection sends,
    which log entries it writes and what it leaves in the metadata record. */
module Protocol {
  import opened JsonValues
  import opened Validator
  import opened Storage

  const InvalidJson := "Invalid JSON"
  /** The simulated consent decision: always granted. */
  const Consent := "ACCEPTED"

  const ReceivedEvent := "CONNECTION_RECEIVED"
  const InvalidEvent := "INVALID_MESSAGE"
  const ConsentEvent := "CONSENT_RESPONSE"
  const ClosedEvent := "CONNECTION_CLOSED"

  /** One inbound frame: text that is not JSON, or the value it decoded to. */
  datatype Frame = DecodeFailed | Decoded(value: Json)

  /** The four kinds of message the target sends. */
  datatype Outbound =
    | TargetRegister(targetId: string)
    | Pong(targetId: string)
    | ConsentResponse(targetId: string, agentId: Json, consent: string)
    | ErrorReply(error: string)

  /** The JSON object each outbound message is sent as. */
  function ToJson(m: Outbound): Json
  {
    match m
    case TargetRegister(t) =>
      JObject(map["type" := JString("target_register"), "target_id" := JString(t)])
    case Pong(t) =>
      JObject(map["type" := JString("pong"), "target_id" := JString(t)])
    case ConsentResponse(t, a, c) =>
      JObject(map["type" := JString("consent_response"), "target_id" := JString(t),
                  "agent_id" := a, "consent" := JString(c)])
    case ErrorReply(e) =>
      JObject(map["error" := JString(e)])
  }

  /** Error replies are the only messages without a "type" field, and no two distinct
      messages are sent as the same JSON object. */
  lemma WireFormDistinct(m: Outbound, m': Outbound)
    ensures "type" in ToJson(m).fields <==> !m.ErrorReply?
    ensures ToJson(m) == ToJson(m') ==> m == m'
  {
    if ToJson(m) == ToJson(m') {
      var f, f' := ToJson(m).fields, ToJson(m').fields;
      assert ("type" in f) == ("type" in f');
      if "type" in f {
        assert f["type"] == f'["type"];
        assert f["target_id"] == f'["target_id"];
        if m.ConsentResponse? {
          assert f["agent_id"] == f'["agent_id"] && f["consent"] == f'["consent"];
        }
      } else {
        assert f["error"] == f'["error"];
      }
    }
  }

  function ReceivedEntry(remote: string): LogEntry
  {
    LogEntry(ReceivedEvent, map["remote" := JString(remote)])
  }

  function InvalidEntry(reason: string): LogEntry
  {
    LogEntry(InvalidEvent, map["reason" := JString(reason)])
  }

  function ConsentEntry(agent: Json, consent: string): LogEntry
  {
    LogEntry(ConsentEvent, map["agent_id" := agent, "consent" := JString(consent)])
  }

  function ClosedEntry(): LogEntry
  {
    LogEntry(ClosedEvent, map[])
  }

  /** A frame that decoded but failed validation. */
  predicate IsRejected(f: Frame)
  {
    f.Decoded? && !Validate(f.value).ok
  }

  /** A frame carrying a valid security-test request. */
  predicate IsScanFrame(f: Frame)
  {
    f.Decoded? && IsScanRequest(f.value)
  }

  /** What handling one frame does: the reply, the log entries written before and
      after the reply is sent, and the metadata record written (if any). */
  datatype StepResult = StepResult(reply: Outbound, beforeReply: seq<LogEntry>,
                                   afterReply: seq<LogEntry>, scan: Option<Json>)

  /** Handling one frame at time `now`. */
  function Step(targetId: string, now: real, f: Frame): StepResult
  {
    match f
    case DecodeFailed =>
      StepResult(ErrorReply(InvalidJson), [], [], None)
    case Decoded(data) =>
      var v := Validate(data);
      if !v.ok then
        StepResult(ErrorReply(v.reason), [], [InvalidEntry(v.reason)], None)
      else if data.fields["type"] == JString(PingType) then
        StepResult(Pong(targetId), [], [], None)
      else
        var agent := data.fields["agent_id"];
        StepResult(ConsentResponse(targetId, agent, Consent),
                   [ConsentEntry(agent, Consent)], [], Some(ScanRecord(now, agent)))
  }

  /** Every frame gets exactly one reply: an undecodable frame gets "Invalid JSON" and
      nothing is logged; a rejected frame gets the validator's reason, logged after the
      reply; a ping gets a pong and nothing else happens; a security-test request gets the
      consent response for its agent, after the metadata and the log are written. */
  lemma StepOutcome(targetId: string, now: real, f: Frame)
    ensures f.DecodeFailed? ==> Step(targetId, now, f) == StepResult(ErrorReply(InvalidJson), [], [], None)
    ensures IsRejected(f) ==>
              var reason := Validate(f.value).reason;
              Step(targetId, now, f) == StepResult(ErrorReply(reason), [], [InvalidEntry(reason)], None)
    ensures f.Decoded? && IsPing(f.value) ==> Step(targetId, now, f) == StepResult(Pong(targetId), [], [], None)
    ensures IsScanFrame(f) ==>
              var agent := f.value.fields["agent_id"];
              Step(targetId, now, f)
                == StepResult(ConsentResponse(targetId, agent, Consent),
                              [ConsentEntry(agent, Consent)], [], Some(ScanRecord(now, agent)))
    ensures Step(targetId, now, f).reply.ErrorReply? <==> f.DecodeFailed? || IsRejected(f)
    ensures Step(targetId, now, f).scan.Some? <==> IsScanFrame(f)
  {
  }

  /** The entries a step writes: those before its reply, and those after it too when
      the reply is delivered. */
  function Written(s: StepResult, sendFails: bool): seq<LogEntry>
  {
    if sendFails then s.beforeReply else s.beforeReply + s.afterReply
  }

  /** The step of every frame, frame k handled at time `clock(k)`. */
  function Steps(targetId: string, clock: nat -> real, frames: seq<Frame>): seq<StepResult>
  {
    seq(|frames|, j requires 0 <= j < |frames| => Step(targetId, clock(j), frames[j]))
  }

  /** The steps of the first `k` frames are the first `k` steps. */
  lemma StepsPrefix(targetId: string, clock: nat -> real, frames: seq<Frame>, k: nat)
    requires k <= |frames|
    ensures Steps(targetId, clock, frames)[..k] == Steps(targetId, clock, frames[..k])
  {
  }

  /** What a connection has done so far: messages delivered, log entries written in
      order (before truncation), the metadata record, and whether a send raised. */
  datatype Session = Session(sent: seq<Outbound>, trace: seq<LogEntry>,
                             metadata: Record<Json>, raised: bool)

  /** The frame loop, performing the steps `steps` in order. Send number 0 is the
      registration, so the reply of step k is send number k + 1; `failAt` names the send
      that raises, if any. A raised send ends the loop: the later frames are never read. */
  function Run(steps: seq<StepResult>, failAt: Option<nat>, meta0: Record<Json>): Session
    decreases |steps|
  {
    if |steps| == 0 then Session([], [], meta0, false)
    else
      var k := |steps| - 1;
      var o := Run(steps[..k], failAt, meta0);
      if o.raised then o else Advance(o, steps[k], failAt == Some(k + 1))
  }

  /** The session after one more step whose reply raises when `sendFails`: the reply is
      delivered unless it raises, the step's entries up to the failed send are logged, and
      the metadata record it writes (if any) replaces the old one. */
  function Advance(o: Session, s: StepResult, sendFails: bool): Session
  {
    Session(if sendFails then o.sent else o.sent + [s.reply], o.trace + Written(s, sendFails),
            if s.scan.Some? then Present(s.scan.value) else o.metadata, sendFails)
  }

  /** A whole connection from `remote`: the opening log entry and registration, the
      frame loop, and the closing log entry. The registration is sent before the loop's
      cleanup is in force, so when that send raises nothing more is logged. */
  function Connection(targetId: string, remote: string, clock: nat -> real, frames: seq<Frame>,
                      failAt: Option<nat>, meta0: Record<Json>): Session
  {
    if failAt == Some(0) then Session([], [ReceivedEntry(remote)], meta0, true)
    else
      var o := Run(Steps(targetId, clock, frames), failAt, meta0);
      Session([TargetRegister(targetId)] + o.sent, [ReceivedEntry(remote)] + o.trace + [ClosedEntry()],
              o.metadata, o.raised)
  }

  /** A connection whose registration is delivered: the registration, then the frame loop,
      then the closing entry. */
  lemma ConnectionAfterRegistration(targetId: string, remote: string, clock: nat -> real, frames: seq<Frame>,
                                    failAt: Option<nat>, meta0: Record<Json>)
    requires failAt != Some(0)
    ensures var o := Run(Steps(targetId, clock, frames), failAt, meta0);
            var c := Connection(targetId, remote, clock, frames, failAt, meta0);
            c.sent == [TargetRegister(targetId)] + o.sent && c.raised == o.raised &&
            c.metadata == o.metadata && c.trace == [ReceivedEntry(remote)] + o.trace + [ClosedEntry()]
  {
  }

  /** No send among the replies of the first `n` steps (numbers 1 to n) raises. */
  predicate NoFailureUpTo(failAt: Option<nat>, n: nat)
  {
    failAt.None? || failAt.value == 0 || failAt.value > n
  }

  /** All the entries the steps write when every reply is delivered, in order. */
  function Flatten(steps: seq<StepResult>): seq<LogEntry>
    decreases |steps|
  {
    if |steps| == 0 then [] else Flatten(steps[..|steps| - 1]) + Written(steps[|steps| - 1], false)
  }

  /** Without a failed send, the loop does not end by raising. */
  lemma {:induction false} NeverRaised(steps: seq<StepResult>, failAt: Option<nat>, meta0: Record<Json>)
    requires NoFailureUpTo(failAt, |steps|)
    ensures !Run(steps, failAt, meta0).raised
    decreases |steps|
  {
    if |steps| > 0 {
      NeverRaised(steps[..|steps| - 1], failAt, meta0);
    }
  }

  /** Without a failed send, every step's reply is delivered in order and every step's
      entries are logged in order. */
  lemma {:induction false} RunWithoutFailure(steps: seq<StepResult>, failAt: Option<nat>, meta0: Record<Json>)
    requires NoFailureUpTo(failAt, |steps|)
    ensures var o := Run(steps, failAt, meta0);
            !o.raised && |o.sent| == |steps| && o.trace == Flatten(steps) &&
            forall j :: 0 <= j < |steps| ==> o.sent[j] == steps[j].reply
    decreases |steps|
  {
    if |steps| > 0 {
      RunWithoutFailure(steps[..|steps| - 1], failAt, meta0);
    }
  }

  /** Once a send has raised, later steps change nothing. */
  lemma {:induction false} RaisedIsFinal(steps: seq<StepResult>, failAt: Option<nat>, meta0: Record<Json>, i: nat)
    requires i <= |steps|
    requires Run(steps[..i], failAt, meta0).raised
    ensures Run(steps, failAt, meta0) == Run(steps[..i], failAt, meta0)
    decreases |steps| - i
  {
    if i < |steps| {
      var k := |steps| - 1;
      assert steps[..k][..i] == steps[..i];
      RaisedIsFinal(steps[..k], failAt, meta0, i);
    } else {
      assert steps[..i] == steps;
    }
  }

  /** The loop stops after i steps when they are all the steps or the last one raised;
      either way the outcome is that of the whole run. */
  lemma RunStopped(steps: seq<StepResult>, failAt: Option<nat>, meta0: Record<Json>, i: nat)
    requires i <= |steps|
    requires i == |steps| || Run(steps[..i], failAt, meta0).raised
    ensures Run(steps, failAt, meta0) == Run(steps[..i], failAt, meta0)
  {
    if i == |steps| {
      assert steps[..i] == steps;
    } else {
      RaisedIsFinal(steps, failAt, meta0, i);
    }
  }

  /** A failure scheduled for a send the loop never reaches has no effect. */
  lemma {:induction false} LaterFailureIgnored(steps: seq<StepResult>, failAt: Option<nat>, meta0: Record<Json>)
    requires NoFailureUpTo(failAt, |steps|)
    ensures Run(steps, failAt, meta0) == Run(steps, None, meta0)
    decreases |steps|
  {
    if |steps| > 0 {
      LaterFailureIgnored(steps[..|steps| - 1], failAt, meta0);
    }
  }

  /** One more pass of the loop, as the loop performs it. */
  lemma RunExtend(steps: seq<StepResult>, failAt: Option<nat>, meta0: Record<Json>, i: nat)
    requires i < |steps|
    requires !Run(steps[..i], failAt, meta0).raised
    ensures Run(steps[..i + 1], failAt, meta0)
              == Advance(Run(steps[..i], failAt, meta0), steps[i], failAt == Some(i + 1))
  {
    assert steps[..i + 1][..i] == steps[..i];
  }

  /** Every entry the loop logs was written by one of its steps. */
  lemma {:induction false} RunTraceFromSteps(steps: seq<StepResult>, failAt: Option<nat>, meta0: Record<Json>)
    ensures forall e :: e in Run(steps, failAt, meta0).trace ==>
              exists j :: 0 <= j < |steps| && e in Written(steps[j], false)
    decreases |steps|
  {
    if |steps| > 0 {
      var k := |steps| - 1;
      RunTraceFromSteps(steps[..k], failAt, meta0);
      forall e | e in Run(steps, failAt, meta0).trace
        ensures exists j :: 0 <= j < |steps| && e in Written(steps[j], false)
      {
        var o := Run(steps[..k], failAt, meta0);
        if e in o.trace {
          var j :| 0 <= j < k && e in Written(steps[..k][j], false);
          assert steps[..k][j] == steps[j];
        } else {
          var w := Written(steps[k], failAt == Some(k + 1));
          assert Run(steps, failAt, meta0).trace == o.trace + w;
          assert e in w;
          assert w <= Written(steps[k], false);
        }
      }
    }
  }

  /** Without a failed send, a loop in which no step writes metadata leaves the initial record. */
  lemma {:induction false} RunMetadataUntouched(steps: seq<StepResult>, failAt: Option<nat>, meta0: Record<Json>)
    requires NoFailureUpTo(failAt, |steps|)
    requires forall j :: 0 <= j < |steps| ==> steps[j].scan.None?
    ensures Run(steps, failAt, meta0).metadata == meta0
    decreases |steps|
  {
    if |steps| > 0 {
      var k := |steps| - 1;
      var init := steps[..k];
      assert forall j :: 0 <= j < k ==> init[j].scan.None?;
      RunMetadataUntouched(init, failAt, meta0);
      NeverRaised(init, failAt, meta0);
    }
  }

  /** Without a failed send, the metadata record is the one written by step `j` when no
      later step writes one. */
  lemma {:induction false} RunMetadataLast(steps: seq<StepResult>, failAt: Option<nat>, meta0: Record<Json>, j: nat)
    requires NoFailureUpTo(failAt, |steps|)
    requires j < |steps| && steps[j].scan.Some?
    requires forall i :: j < i < |steps| ==> steps[i].scan.None?
    ensures Run(steps, failAt, meta0).metadata == Present(steps[j].scan.value)
    decreases |steps|
  {
    var k := |steps| - 1;
    var init := steps[..k];
    NeverRaised(init, failAt, meta0);
    if j < k {
      assert init[j] == steps[j];
      assert forall i :: j < i < k ==> init[i].scan.None?;
      RunMetadataLast(init, failAt, meta0, j);
    }
  }

  /** Without a failed send, the metadata record is the one written by the last step
      that wrote one, or the initial one when no step did. */
  lemma RunMetadata(steps: seq<StepResult>, failAt: Option<nat>, meta0: Record<Json>)
    requires NoFailureUpTo(failAt, |steps|)
    ensures var o := Run(steps, failAt, meta0);
            ((forall j :: 0 <= j < |steps| ==> steps[j].scan.None?) ==> o.metadata == meta0) &&
            forall j :: 0 <= j < |steps| && steps[j].scan.Some? &&
                        (forall i :: j < i < |steps| ==> steps[i].scan.None?) ==>
                        o.metadata == Present(steps[j].scan.value)
  {
    if forall j :: 0 <= j < |steps| ==> steps[j].scan.None? {
      RunMetadataUntouched(steps, failAt, meta0);
    }
    forall j | 0 <= j < |steps| && steps[j].scan.Some? &&
               (forall i :: j < i < |steps| ==> steps[i].scan.None?)
      ensures Run(steps, failAt, meta0).metadata == Present(steps[j].scan.value)
    {
      RunMetadataLast(steps, failAt, meta0, j);
    }
  }

  /** Number of entries of `trace` with event `event`. */
  function Occurrences(trace: seq<LogEntry>, event: string): nat
    decreases |trace|
  {
    if |trace| == 0 then 0
    else Occurrences(trace[..|trace| - 1], event) + (if trace[|trace| - 1].event == event then 1 else 0)
  }

  lemma {:induction false} OccurrencesAppend(a: seq<LogEntry>, b: seq<LogEntry>, event: string)
    ensures Occurrences(a + b, event) == Occurrences(a, event) + Occurrences(b, event)
    decreases |b|
  {
    if |b| == 0 {
      assert a + b == a;
    } else {
      var init := b[..|b| - 1];
      assert (a + b)[..|a + b| - 1] == a + init;
      OccurrencesAppend(a, init, event);
    }
  }

  lemma OccurrencesOne(e: LogEntry, event: string)
    ensures Occurrences([e], event) == if e.event == event then 1 else 0
  {
    assert [e][..0] == [];
  }

  /** A trace with no entry for `event` counts none. */
  lemma {:induction false} OccurrencesAbsent(trace: seq<LogEntry>, event: string)
    requires forall e :: e in trace ==> e.event != event
    ensures Occurrences(trace, event) == 0
    decreases |trace|
  {
    if |trace| > 0 {
      var init := trace[..|trace| - 1];
      assert forall e :: e in init ==> e in trace;
      OccurrencesAbsent(init, event);
    }
  }

  /** Number of frames that decoded but failed validation. */
  function CountRejected(frames: seq<Frame>): nat
    decreases |frames|
  {
    if |frames| == 0 then 0
    else CountRejected(frames[..|frames| - 1]) + (if IsRejected(frames[|frames| - 1]) then 1 else 0)
  }

  /** Number of frames carrying a valid security-test request. */
  function CountScans(frames: seq<Frame>): nat
    decreases |frames|
  {
    if |frames| == 0 then 0
    else CountScans(frames[..|frames| - 1]) + (if IsScanFrame(frames[|frames| - 1]) then 1 else 0)
  }

  /** A step logs at most one entry: INVALID_MESSAGE for a rejected frame,
      CONSENT_RESPONSE for a security-test request. */
  lemma StepLogsOne(targetId: string, now: real, f: Frame, event: string)
    ensures var w := Written(Step(targetId, now, f), false);
            |w| == (if IsRejected(f) || IsScanFrame(f) then 1 else 0) &&
            (forall e :: e in w ==> e.event == InvalidEvent || e.event == ConsentEvent) &&
            Occurrences(w, event) ==
              if (IsRejected(f) && event == InvalidEvent) || (IsScanFrame(f) && event == ConsentEvent)
              then 1 else 0
  {
    var w := Written(Step(targetId, now, f), false);
    if IsRejected(f) {
      assert w == [InvalidEntry(Validate(f.value).reason)];
      OccurrencesOne(w[0], event);
    } else if IsScanFrame(f) {
      assert w == [ConsentEntry(f.value.fields["agent_id"], Consent)];
      OccurrencesOne(w[0], event);
    } else {
      assert w == [];
    }
  }

  /** The entries of all the frames' steps: one INVALID_MESSAGE per rejected frame, one
      CONSENT_RESPONSE per security-test request, and nothing else. */
  lemma {:induction false} FrameLogCounts(targetId: string, clock: nat -> real, frames: seq<Frame>)
    ensures var logs := Flatten(Steps(targetId, clock, frames));
            Occurrences(logs, InvalidEvent) == CountRejected(frames) &&
            Occurrences(logs, ConsentEvent) == CountScans(frames) &&
            |logs| == CountRejected(frames) + CountScans(frames) &&
            forall e :: e in logs ==> e.event == InvalidEvent || e.event == ConsentEvent
    decreases |frames|
  {
    if |frames| > 0 {
      var k := |frames| - 1;
      var steps := Steps(targetId, clock, frames);
      StepsPrefix(targetId, clock, frames, k);
      FrameLogCounts(targetId, clock, frames[..k]);
      var prev := Flatten(steps[..k]);
      var w := Written(steps[k], false);
      assert Flatten(steps) == prev + w;
      StepLogsOne(targetId, clock(k), frames[k], InvalidEvent);
      StepLogsOne(targetId, clock(k), frames[k], ConsentEvent);
      OccurrencesAppend(prev, w, InvalidEvent);
      OccurrencesAppend(prev, w, ConsentEvent);
    }
  }

  /** When every send succeeds, the registration goes out first and then exactly one
      reply per frame, in the order the frames arrived. */
  lemma ConnectionRepliesInOrder(targetId: string, remote: string, clock: nat -> real, frames: seq<Frame>,
                                 failAt: Option<nat>, meta0: Record<Json>)
    requires failAt.None? || failAt.value > |frames|
    ensures var c := Connection(targetId, remote, clock, frames, failAt, meta0);
            !c.raised && |c.sent| == 1 + |frames| && c.sent[0] == TargetRegister(targetId) &&
            forall j :: 0 <= j < |frames| ==> c.sent[j + 1] == Step(targetId, clock(j), frames[j]).reply
  {
    RunWithoutFailure(Steps(targetId, clock, frames), failAt, meta0);
  }

  /** The connection's first log entry is CONNECTION_RECEIVED and there is no other.
      Unless the registration send itself raises, the last entry is CONNECTION_CLOSED and
      there is exactly one, however the loop ends; when it does raise, no frame is handled:
      nothing is delivered, CONNECTION_RECEIVED is the only entry and the metadata record
      is untouched. */
  lemma ConnectionLifecycleLog(targetId: string, remote: string, clock: nat -> real, frames: seq<Frame>,
                               failAt: Option<nat>, meta0: Record<Json>)
    ensures var c := Connection(targetId, remote, clock, frames, failAt, meta0);
            c.trace[0] == ReceivedEntry(remote) && Occurrences(c.trace, ReceivedEvent) == 1 &&
            (failAt != Some(0) ==> c.trace[|c.trace| - 1] == ClosedEntry() && Occurrences(c.trace, ClosedEvent) == 1) &&
            (failAt == Some(0) ==> c.sent == [] && c.raised && c.trace == [ReceivedEntry(remote)] &&
                                   c.metadata == meta0 && Occurrences(c.trace, ClosedEvent) == 0)
  {
    OccurrencesOne(ReceivedEntry(remote), ReceivedEvent);
    OccurrencesOne(ReceivedEntry(remote), ClosedEvent);
    if failAt != Some(0) {
      var steps := Steps(targetId, clock, frames);
      var trace := Run(steps, failAt, meta0).trace;
      RunTraceFromSteps(steps, failAt, meta0);
      forall e | e in trace
        ensures e.event == InvalidEvent || e.event == ConsentEvent
      {
        var j :| 0 <= j < |steps| && e in Written(steps[j], false);
        StepLogsOne(targetId, clock(j), frames[j], InvalidEvent);
      }
      OccurrencesAbsent(trace, ReceivedEvent);
      OccurrencesAbsent(trace, ClosedEvent);
      OccurrencesOne(ClosedEntry(), ReceivedEvent);
      OccurrencesOne(ClosedEntry(), ClosedEvent);
      OccurrencesAppend([ReceivedEntry(remote)], trace, ReceivedEvent);
      OccurrencesAppend([ReceivedEntry(remote)], trace, ClosedEvent);
      OccurrencesAppend([ReceivedEntry(remote)] + trace, [ClosedEntry()], ReceivedEvent);
      OccurrencesAppend([ReceivedEntry(remote)] + trace, [ClosedEntry()], ClosedEvent);
    }
  }

  /** When every send succeeds, the connection logs its two lifecycle entries, one
      INVALID_MESSAGE per rejected frame, one CONSENT_RESPONSE per security-test request,
      and nothing else; undecodable frames and pings are not logged. */
  lemma ConnectionLogCounts(targetId: string, remote: string, clock: nat -> real, frames: seq<Frame>,
                            failAt: Option<nat>, meta0: Record<Json>)
    requires failAt.None? || failAt.value > |frames|
    ensures var c := Connection(targetId, remote, clock, frames, failAt, meta0);
            Occurrences(c.trace, InvalidEvent) == CountRejected(frames) &&
            Occurrences(c.trace, ConsentEvent) == CountScans(frames) &&
            |c.trace| == 2 + CountRejected(frames) + CountScans(frames)
  {
    var steps := Steps(targetId, clock, frames);
    RunWithoutFailure(steps, failAt, meta0);
    FrameLogCounts(targetId, clock, frames);
    var trace := Flatten(steps);
    var event := InvalidEvent;
    OccurrencesOne(ReceivedEntry(remote), event);
    OccurrencesOne(ClosedEntry(), event);
    OccurrencesAppend([ReceivedEntry(remote)], trace, event);
    OccurrencesAppend([ReceivedEntry(remote)] + trace, [ClosedEntry()], event);
    event := ConsentEvent;
    OccurrencesOne(ReceivedEntry(remote), event);
    OccurrencesOne(ClosedEntry(), event);
    OccurrencesAppend([ReceivedEntry(remote)], trace, event);
    OccurrencesAppend([ReceivedEntry(remote)] + trace, [ClosedEntry()], event);
  }

  /** When every send succeeds, the metadata record ends as that of the last
      security-test request, and is untouched when there was none. */
  lemma ConnectionMetadata(targetId: string, remote: string, clock: nat -> real, frames: seq<Frame>,
                           failAt: Option<nat>, meta0: Record<Json>)
    requires failAt.None? || failAt.value > |frames|
    ensures var c := Connection(targetId, remote, clock, frames, failAt, meta0);
            ((forall j :: 0 <= j < |frames| ==> !IsScanFrame(frames[j])) ==> c.metadata == meta0) &&
            forall j :: 0 <= j < |frames| && IsScanFrame(frames[j]) &&
                        (forall i :: j < i < |frames| ==> !IsScanFrame(frames[i])) ==>
                        c.metadata == Present(ScanRecord(clock(j), frames[j].value.fields["agent_id"]))
  {
    var steps := Steps(targetId, clock, frames);
    RunMetadata(steps, failAt, meta0);
    forall j | 0 <= j < |frames|
      ensures steps[j].scan.Some? <==> IsScanFrame(frames[j])
      ensures IsScanFrame(frames[j]) ==> steps[j].scan.value == ScanRecord(clock(j), frames[j].value.fields["agent_id"])
    {
      assert steps[j] == Step(targetId, clock(j), frames[j]);
      StepOutcome(targetId, clock(j), frames[j]);
    }
  }

  /** The loop when the reply of step k raises: the earlier steps ran as without any
      failure, and step k wrote only what it writes before its reply. */
  lemma RunFailingAt(steps: seq<StepResult>, meta0: Record<Json>, k: nat)
    requires k < |steps|
    ensures var o := Run(steps[..k], None, meta0);
            Run(steps, Some(k + 1), meta0)
              == Session(o.sent, o.trace + steps[k].beforeReply,
                         if steps[k].scan.Some? then Present(steps[k].scan.value) else o.metadata, true)
  {
    LaterFailureIgnored(steps[..k], Some(k + 1), meta0);
    RunWithoutFailure(steps[..k], Some(k + 1), meta0);
    RunExtend(steps, Some(k + 1), meta0, k);
    RaisedIsFinal(steps, Some(k + 1), meta0, k + 1);
  }

  /** When the reply to frame k raises, the connection ends there: only the registration
      and the replies to the earlier frames were delivered, CONNECTION_CLOSED is still the
      last log entry, a rejected frame k is not logged, and a security-test request in
      frame k is recorded in the metadata and the log although its reply never left. */
  lemma SendFailureEndsConnection(targetId: string, remote: string, clock: nat -> real,
                                  frames: seq<Frame>, k: nat, meta0: Record<Json>)
    requires k < |frames|
    ensures var c := Connection(targetId, remote, clock, frames, Some(k + 1), meta0);
            var before := Connection(targetId, remote, clock, frames[..k], None, meta0);
            c.raised && c.sent == before.sent && c.trace[|c.trace| - 1] == ClosedEntry() &&
            (IsScanFrame(frames[k]) ==>
               var agent := frames[k].value.fields["agent_id"];
               c.metadata == Present(ScanRecord(clock(k), agent)) &&
               c.trace == before.trace[..|before.trace| - 1] + [ConsentEntry(agent, Consent), ClosedEntry()]) &&
            (!IsScanFrame(frames[k]) ==> c.trace == before.trace && c.metadata == before.metadata)
  {
    var steps := Steps(targetId, clock, frames);
    StepsPrefix(targetId, clock, frames, k);
    RunFailingAt(steps, meta0, k);
    var o := Run(steps[..k], None, meta0);
    var s := steps[k];
    assert s == Step(targetId, clock(k), frames[k]);
    if IsScanFrame(frames[k]) {
      var before := Connection(targetId, remote, clock, frames[..k], None, meta0);
      assert before.trace[..|before.trace| - 1] == [ReceivedEntry(remote)] + o.trace;
    } else {
      assert s.beforeReply == [] && s.scan.None?;
      assert o.trace + s.beforeReply == o.trace;
    }
  }

  /** Garbage on the wire does not close the connection: a ping sent after it is answered. */
  lemma GarbageThenPing(targetId: string, remote: string, clock: nat -> real, meta0: Record<Json>)
    ensures Connection(targetId, remote, clock, [DecodeFailed, Decoded(JObject(map["type" := JString(PingType)]))],
                       None, meta0).sent
            == [TargetRegister(targetId), ErrorReply(InvalidJson), Pong(targetId)]
  {
    var frames := [DecodeFailed, Decoded(JObject(map["type" := JString(PingType)]))];
    assert IsPing(frames[1].value);
    ConnectionRepliesInOrder(targetId, remote, clock, frames, None, meta0);
    var c := Connection(targetId, remote, clock, frames, None, meta0);
    assert c.sent[1] == Step(targetId, clock(0), frames[0]).reply == ErrorReply(InvalidJson);
    assert c.sent[2] == Step(targetId, clock(1), frames[1]).reply == Pong(targetId);
  }
}

=== FILE: storage.dfy ===
/** The target's three persisted records (settings, event log, last-scan metadata),
    kept as in-memory state instead of JSON files. */
module Storage {
  import opened JsonValues

  /** The state of one record file: missing, present but not loadable, or holding a value.
      A file that exists but cannot be loaded still counts as existing. */
  datatype Record<T> = Absent | Unreadable | Present(value: T)

  /** One `{event, details}` entry of the event log. */
  datatype LogEntry = LogEntry(event: string, details: map<string, Json>)

  const MaxLogEntries: nat := 100
  const TargetPort: int := 8000

  /** For n > 0, `s[-n:]` in Python: the last `n` elements, or all of `s` when it is shorter.
      (Python's `s[-0:]` is all of `s`; only n = 100 is used.) */
  function KeepLast<T>(s: seq<T>, n: nat): seq<T>
  {
    if |s| <= n then s else s[|s| - n..]
  }

  /** What is kept is the suffix of `s` of length min(|s|, n). */
  lemma KeepLastIsSuffix<T>(s: seq<T>, n: nat)
    ensures var r := KeepLast(s, n);
            |r| == (if |s| <= n then |s| else n) && r == s[|s| - |r|..]
  {
  }

  /** `load_json(LOGS_FILE) or []`: a missing or unloadable log reads as empty. */
  function LoadedLogs(rec: Record<seq<LogEntry>>): seq<LogEntry>
  {
    if rec.Present? then rec.value else []
  }

  /** The log `log_event` saves after appending `e` to the record `rec`. */
  function Appended(rec: Record<seq<LogEntry>>, e: LogEntry): seq<LogEntry>
  {
    KeepLast(LoadedLogs(rec) + [e], MaxLogEntries)
  }

  /** After `log_event` the log holds at most 100 entries, the new one last, and before it
      the most recent entries that were there, in their order; an unloadable log is
      replaced by the new entry alone. */
  lemma AppendedKeepsRecent(rec: Record<seq<LogEntry>>, e: LogEntry)
    ensures var r := Appended(rec, e);
            0 < |r| <= MaxLogEntries && r[|r| - 1] == e &&
            r[..|r| - 1] == KeepLast(LoadedLogs(rec), MaxLogEntries - 1) &&
            (!rec.Present? ==> r == [e])
  {
    var loaded := LoadedLogs(rec);
    var logs := loaded + [e];
    var r := KeepLast(logs, MaxLogEntries);
    if |loaded| < MaxLogEntries {
      assert r == logs;
      assert r[..|r| - 1] == loaded;
    } else {
      var d := |loaded| - (MaxLogEntries - 1);
      assert r == logs[d..];
      assert r[..|r| - 1] == loaded[d..];
    }
  }

  /** Truncating early does not change the end result of a later truncation. */
  lemma KeepLastAbsorbs<T>(a: seq<T>, b: seq<T>, n: nat)
    ensures KeepLast(KeepLast(a, n) + b, n) == KeepLast(a + b, n)
  {
    var k := KeepLast(a, n);
    KeepLastIsSuffix(a, n);
    var x, y := KeepLast(k + b, n), KeepLast(a + b, n);
    KeepLastIsSuffix(k + b, n);
    KeepLastIsSuffix(a + b, n);
    assert |x| == |y|;
    forall i | 0 <= i < |x|
      ensures x[i] == y[i]
    {
      var j := |k + b| - |x| + i;
      if j < |k| {
        assert x[i] == (k + b)[j] == k[j] == a[|a| - |k| + j];
        assert y[i] == (a + b)[|a| - |k| + j];
      } else {
        assert x[i] == b[j - |k|];
        assert y[i] == (a + b)[|a| + j - |k|];
      }
    }
  }

  /** The log after `log_event` has been called once per entry of `es`, in order. */
  function AppendedAll(rec: Record<seq<LogEntry>>, es: seq<LogEntry>): seq<LogEntry>
    decreases |es|
  {
    if |es| == 0 then LoadedLogs(rec)
    else KeepLast(AppendedAll(rec, es[..|es| - 1]) + [es[|es| - 1]], MaxLogEntries)
  }

  /** The log after a run of `log_event` calls is the last 100 of everything logged. */
  lemma {:induction false} AppendedAllKeepsLast(rec: Record<seq<LogEntry>>, es: seq<LogEntry>)
    requires es != []
    ensures AppendedAll(rec, es) == KeepLast(LoadedLogs(rec) + es, MaxLogEntries)
    decreases |es|
  {
    var base := LoadedLogs(rec);
    var init, e := es[..|es| - 1], es[|es| - 1];
    assert es == init + [e];
    var prev := AppendedAll(rec, init);
    assert AppendedAll(rec, es) == KeepLast(prev + [e], MaxLogEntries);
    if init == [] {
      assert prev == base;
    } else {
      AppendedAllKeepsLast(rec, init);
      KeepLastAbsorbs(base + init, [e], MaxLogEntries);
      assert base + init + [e] == base + es;
    }
  }

  /** After at least 100 events have been logged, the store holds exactly the most
      recent 100 of them, in the order they were logged. */
  lemma RetainsMostRecent(rec: Record<seq<LogEntry>>, es: seq<LogEntry>)
    requires |es| >= MaxLogEntries
    ensures AppendedAll(rec, es) == es[|es| - MaxLogEntries..]
  {
    AppendedAllKeepsLast(rec, es);
    KeepLastOfLongTail(LoadedLogs(rec), es, MaxLogEntries);
  }

  /** When `b` alone has at least `n` elements, the last `n` of `a + b` all come from `b`. */
  lemma KeepLastOfLongTail<T>(a: seq<T>, b: seq<T>, n: nat)
    requires |b| >= n
    ensures KeepLast(a + b, n) == b[|b| - n..]
  {
    var s := a + b;
    var r := KeepLast(s, n);
    KeepLastIsSuffix(s, n);
    assert |r| == n;
    forall i | 0 <= i < n
      ensures r[i] == b[|b| - n..][i]
    {
      assert r[i] == s[|a| + (|b| - n + i)];
    }
  }

  /** The settings document written on first start. */
  function SettingsRecord(targetId: string): Json
  {
    JObject(map["target_id" := JString(targetId), "port" := JNumber(TargetPort as real)])
  }

  /** The metadata document written before any scan has happened. */
  function NoScanRecord(): Json
  {
    JObject(map["last_scan_time" := JNull, "agent_source" := JNull])
  }

  /** The metadata document written when agent `agent` requests a test at time `now`. */
  function ScanRecord(now: real, agent: Json): Json
  {
    JObject(map["last_scan_time" := JNumber(now), "agent_source" := agent])
  }

  /** The storage directory: one record per file. */
  class Store {
    var settings: Record<Json>
    var logs: Record<seq<LogEntry>>
    var metadata: Record<Json>

    /** The directory as the process finds it. */
    constructor (settings: Record<Json>, logs: Record<seq<LogEntry>>, metadata: Record<Json>)
      ensures this.settings == settings && this.logs == logs && this.metadata == metadata
    {
      this.settings := settings;
      this.logs := logs;
      this.metadata := metadata;
    }

    /** `setup_storage`: each record is created only when its file does not exist;
        existing records, readable or not, are left as they are. */
    method SetupStorage(targetId: string)
      modifies this
      ensures settings == if old(settings).Absent? then Present(SettingsRecord(targetId)) else old(settings)
      ensures logs == if old(logs).Absent? then Present([]) else old(logs)
      ensures metadata == if old(metadata).Absent? then Present(NoScanRecord()) else old(metadata)
      ensures settings != Absent && logs != Absent && metadata != Absent
    {
      if settings.Absent? {
        settings := Present(SettingsRecord(targetId));
      }
      if logs.Absent? {
        logs := Present([]);
      }
      if metadata.Absent? {
        metadata := Present(NoScanRecord());
      }
    }

    /** `log_event`: load the log (empty if it cannot be loaded), append, keep the last 100. */
    method LogEvent(event: string, details: map<string, Json>)
      modifies this
      ensures logs == Present(Appended(old(logs), LogEntry(event, details)))
      ensures settings == old(settings) && metadata == old(metadata)
    {
      var loaded := if logs.Present? then logs.value else [];
      loaded := loaded + [LogEntry(event, details)];
      assert loaded == LoadedLogs(logs) + [LogEntry(event, details)];
      logs := Present(KeepLast(loaded, MaxLogEntries));
    }

    /** `save_json(METADATA_FILE, m)`: the metadata record is overwritten. */
    method SaveMetadata(m: Json)
      modifies this
      ensures metadata == Present(m)
      ensures settings == old(settings) && logs == old(logs)
    {
      metadata := Present(m);
    }
  }
}

=== FILE: validator.dfy ===
/** The schema check the target applies to every decoded inbound message. */
module Validator {
  import opened JsonValues

  const PingType := "ping"
  const ScanRequestType := "security_test_request"

  const NotAnObject := "Message must be a JSON object"
  const BadType := "Invalid or missing 'type' field"
  const MissingAgent := "Missing 'agent_id' in security_test_request"
  const ValidMessage := "Valid message"

  /** The pair `(is_valid, reason)` the validator returns. */
  datatype Verdict = Verdict(ok: bool, reason: string)

  /** `msg` is an object whose "type" entry is the string `t`. */
  predicate HasType(msg: Json, t: string)
  {
    msg.JObject? && "type" in msg.fields && msg.fields["type"] == JString(t)
  }

  /** `msg` is a heartbeat request. */
  predicate IsPing(msg: Json)
  {
    HasType(msg, PingType)
  }

  /** `msg` is a security-test request that names its agent (the value is not inspected). */
  predicate IsScanRequest(msg: Json)
  {
    HasType(msg, ScanRequestType) && "agent_id" in msg.fields
  }

  /** The checks run in order and the first failure decides the reason;
      fields other than "type" and "agent_id" are never looked at. */
  function Validate(msg: Json): (r: Verdict)
    ensures !msg.JObject? ==> r == Verdict(false, NotAnObject)
    ensures msg.JObject? && !HasType(msg, PingType) && !HasType(msg, ScanRequestType)
            ==> r == Verdict(false, BadType)
    ensures HasType(msg, ScanRequestType) && "agent_id" !in msg.fields
            ==> r == Verdict(false, MissingAgent)
    ensures IsPing(msg) || IsScanRequest(msg) ==> r == Verdict(true, ValidMessage)
    ensures r.ok <==> IsPing(msg) || IsScanRequest(msg)
  {
    if !msg.JObject? then
      Verdict(false, NotAnObject)
    else if Get(msg, "type") !in [Some(JString(ScanRequestType)), Some(JString(PingType))] then
      Verdict(false, BadType)
    else if Get(msg, "type") == Some(JString(ScanRequestType)) && "agent_id" !in msg.fields then
      Verdict(false, MissingAgent)
    else
      Verdict(true, ValidMessage)
  }

  /** Adding fields other than "type" and "agent_id" never changes the verdict. */
  lemma ExtraFieldsIgnored(fields: map<string, Json>, extra: map<string, Json>)
    requires "type" !in extra && "agent_id" !in extra
    ensures Validate(JObject(fields + extra)) == Validate(JObject(fields))
  {
    var m := fields + extra;
    assert ("type" in m) == ("type" in fields);
    assert "type" in m ==> m["type"] == fields["type"];
    assert ("agent_id" in m) == ("agent_id" in fields);
  }

  /** Only the four fixed reasons can come out, and "Valid message" exactly when valid. */
  lemma ReasonsAreFixed(msg: Json)
    ensures Validate(msg).reason in [NotAnObject, BadType, MissingAgent, ValidMessage]
    ensures Validate(msg).ok <==> Validate(msg).reason == ValidMessage
  {
  }
}
